=== FILE: README.md ===
# Urban Tuxedo checkout core, in Dafny

A verified model of the sequential logic of the Urban Tuxedo e-commerce
backend (Express + Mongoose + Stripe):

- **Checkout** (`Checkout`): the truthiness check on the request body, the
  Stripe line items derived from the cart (image fallback chain, price
  converted to pence with `Math.round`, currency `gbp`) and the single
  session request handed to the payment processor.
- **Webhook** (`Webhook`): how one delivery is classified: a verified
  `checkout.session.completed` event rebuilds the order from the session
  metadata with status `"Processing"`; the save validates it against the order
  schema; the confirmation email and the stock update are started as
  follow-ups. Everything else answers 400 and stores nothing.
- **Stock update** (`Stock`): one `updateOne` per order line in one ordered
  bulk write, each decrementing the first matching size of the first matching
  product, with no lower bound, the "some items could not be updated" warning
  and the swallowed error.
- **Confirmation email arithmetic** (`Email`): subtotal, the shipping line
  `total - subtotal`, the recipient fallback and the ten-character order
  reference.
- **User documents** (`Users`): `updateCart`, `toggleWishlist`, `addAddress`
  and the `fullName` virtual as pure list transformations.
- **Order schema** (`Orders`): the order document, a declarative validity
  predicate and the path-by-path validator Mongoose runs on `save()`, proved
  to agree.

Money is exact (`real` pounds, `int` pence). The payment processor, the
signature check, the database's answer to a write, the generated order id and
the clock are inputs: `gateway`, `Event.verified`, `storeAccepts` / `failAt`,
`id`, `createdAt`.

Behaviours of the code worth knowing:

- There is no pending-purchase store: the order is rebuilt from the session
  metadata, so a redelivered completion event stores a second order
  (`Webhook.RedeliveryStoresTwice`).
- An unhandled event type is answered with 400, not with a success code.
- Checkout accepts an empty item list and a negative total (only falsy values
  are refused), and it does not check the payment method, so a payment can be
  taken for an order the schema later refuses (`Webhook.PaidButNotRecorded`).
- Order `status` is not restricted to an enumeration (`Orders.StatusIsFreeText`).
- The charged amount is never compared with the client's `totalAmount`
  (`Checkout.ChargeNearSubtotal` bounds the charge against the cart's value only).

## Model

| member | source | states |
|---|---|---|
| Checkout.CreateCheckoutSession | controllers/productController.js:88-131 | No session is requested, and 400 "Missing required fields" is answered, exactly when customer or items is absent or the total is absent or zero (an empty item list passes); otherwise one request carries the customer's email, card-only payment mode, the fixed success and cancel pages, the derived line items and the unchanged metadata, and the processor's answer decides 200 with its URL or 500 with its message |
| Checkout.TruthinessEdgeCases | controllers/productController.js:92-94 | An empty cart and a negative total are let through; a zero total is refused |
| Checkout.Round | controllers/productController.js:104 | `Math.round` gives an integer within half a unit of its argument, halves rounded up |
| Checkout.RoundUnique | controllers/productController.js:104 | That integer is the only one in the half-open window, so the window characterises the rounding |
| Checkout.RoundWholePence | controllers/productController.js:104 | A price in whole pence converts to exactly that many pence |
| Checkout.ImageFor | controllers/productController.js:102 | The line's image is non-empty exactly when the primary image or the first gallery image is; the primary wins when set, else the first gallery image |
| Checkout.LineItems | controllers/productController.js:97-107 | One line per item in order, currency "gbp", name the title, the fallback image, quantity copied, unit amount within half a penny of price times 100 |
| Checkout.ChargeNearSubtotal | controllers/productController.js:97-119 | What Stripe charges differs from 100 times the exact subtotal by at most half a penny per unit bought |
| Webhook.HandleWebhook | controllers/productController.js:133-177 | An order is stored, with 200, exactly when the event is verified, of type checkout.session.completed, its metadata parses, the rebuilt order passes the schema and the store accepts it; that order has status "Processing" and the metadata's customer, payment method, items and total, and is followed by one confirmation email and one stock update; every other delivery answers 400 ("Unhandled event type" for other verified types, "Webhook handler failed" otherwise) with no order and no follow-up |
| Webhook.BuiltOrderStatusAccepted | controllers/productController.js:153-159 | The order rebuilt with status "Processing" never fails validation on its status; it is valid exactly when customer, payment method, items and total are |
| Webhook.RedeliveryStoresTwice | controllers/productController.js:143-170 | A completion event that stored an order once stores an equal second order (different id and time) when delivered again |
| Webhook.CheckoutThenWebhook | controllers/productController.js:110-161 | The completion event carrying the metadata of a successful checkout stores exactly the request's customer, payment method, items and total in status "Processing" |
| Webhook.PaidButNotRecorded | controllers/productController.js:92-161 | A checkout with a payment method the schema refuses still reaches the processor, and its completion event stores no order |
| Webhook.StockWarningMeansUnmatchedLine | controllers/productController.js:313-315 | For a stored order, the stock warning fires exactly when some line matches no product size |
| Stock.OpsFor | controllers/productController.js:304-309 | One update per order line, in line order, filtering on the line's `_id` and selected size and decrementing by its quantity |
| Stock.Target | controllers/productController.js:306-307 | An update hits the first size entry with the selected size in the first product with the line's id that has such an entry, and hits nothing exactly when no such entry exists |
| Stock.ApplyOp | controllers/productController.js:305-308 | One update lowers the matched entry by the quantity and leaves every id, size name and other quantity as it was |
| Stock.ApplyAll | controllers/productController.js:311 | The ordered writes never change ids or size names |
| Stock.ApplyAllQuantity | controllers/productController.js:304-311 | After the writes, every size entry holds its old quantity minus the sum of the quantities aimed at it; untargeted entries are unchanged |
| Stock.ModifiedCountAll | controllers/productController.js:313 | The modified count never exceeds the number of lines and equals it exactly when every line matched and asked for a non-zero amount |
| Stock.BulkWrite | controllers/productController.js:311 | The ordered bulk write applies the updates before the failing one and reports how many changed a document |
| Stock.UpdateItemStockCount | controllers/productController.js:302-319 | On success ids and size names are unchanged, each entry ends at old quantity minus its lines' quantities, and the warning fires exactly when the modified count differs from the line count; a failure is logged, never raised, never warned about |
| Stock.StockMayGoNegative | controllers/productController.js:307 | No lower bound: one unit in stock and three ordered leaves minus two |
| Email.ComputeSubtotal | controllers/productController.js:202-205 | The accumulated subtotal is the sum of price times quantity |
| Email.OrderRef | controllers/productController.js:190 | The order reference is the prefix of the id of length min(10, length) |
| Email.ConfirmationSummary | controllers/productController.js:190-226 | Subtotal plus shipping equals the order total; the recipient is the given email, or the order's customer email when that is empty |
| Email.ShippingAtMostTotal | controllers/productController.js:222 | For an order the schema accepts, the shipping line is at most the total |
| Orders.CustomerErrors | models/Order.js:4-15 | The customer snapshot raises no error exactly when all four contact fields and all four address fields are non-empty |
| Orders.ItemErrors | models/Order.js:22-37 | A line raises no error exactly when its `_id` is absent or an ObjectId string, its product id is an ObjectId string (24 hex digits), title and primary image are set, price is at least 0 and quantity at least 1; all its errors name its index |
| Orders.ItemsErrors | models/Order.js:21-38 | Every item error names a position inside the item list |
| Orders.ItemsErrorsEmpty | models/Order.js:21-38 | The item list raises no error exactly when every item is valid |
| Orders.ValidationErrors | models/Order.js:3-42 | The validator reports nothing exactly when the order is valid, ids included (each line id absent or castable, each product id castable); it names the payment method exactly when it is outside cod/card/paypal, the total exactly when negative, the status exactly when empty |
| Orders.NonObjectIdRefused | models/Order.js:23-27 | A product id such as "abc" fails the ObjectId cast, so the line is refused |
| Orders.StatusIsFreeText | models/Order.js:41 | A valid order stays valid under any non-empty status and only under those |
| Orders.SubtotalNonNegative | models/Order.js:29-36 | Valid lines have a non-negative subtotal |
| Users.FirstEntry | models/User.js:145 | The entry `find` returns is the first with the product id |
| Users.RemoveAll | models/User.js:149 | The filtered cart holds no entry for the product and exactly the other entries |
| Users.RemoveAllConcat | models/User.js:149 | Filtering distributes over concatenation, so kept entries stay in their relative order |
| Users.UpdateCart | models/User.js:144-158 | For a product in the cart, quantity at most 0 removes all its entries and a positive quantity overwrites only the first entry, length and other entries unchanged; for an absent product a positive quantity appends one entry and otherwise the cart is unchanged |
| Users.UpdateCartKeepsDistinct | models/User.js:144-158 | Distinct product ids stay distinct |
| Users.IndexOf | models/User.js:162 | `indexOf` finds the first occurrence |
| Users.ToggleWishlist | models/User.js:161-169 | A present id loses its first occurrence, the other entries keeping their order; an absent id is appended |
| Users.ToggleTwiceAbsent | models/User.js:161-169 | Toggling an absent id twice restores the list |
| Users.ToggleFlipsMembership | models/User.js:161-169 | On a list without repeats a toggle flips membership and keeps the list without repeats |
| Users.Cast | models/User.js:21-29 | A new address keeps the given street, city, state, zip code and country, gets country "US" when none is given, and is stored as default exactly when its flag is true |
| Users.AddAddress | models/User.js:135-141 | The new address is appended; a default one clears every earlier flag, leaving exactly one default; a non-default one leaves the earlier addresses unchanged |
| Users.AddAddressKeepsOneDefault | models/User.js:135-141 | At most one default address is preserved |
| Users.FullName | models/User.js:172-177 | With both names set the full name is first name, one space, last name; otherwise the username |
| Users.SplitAtSpace | models/User.js:172-177 | Splitting at the first space returns a space-free head and the rest |
| Users.FullNameRoundTrip | models/User.js:172-177 | When the first name has no space, both names are read back from the full name |

## Left out

- The Stripe API call, webhook signature cryptography and the mail transport: foreign services, modelled as the `gateway` function, the `verified` flag and omitted sending.
- JSON serialisation of the metadata and Stripe's conversion of metadata values to strings: the metadata is carried as structured values and `JSON.parse` failure is a missing `metadata`.
- Checkout.CreateCheckoutSession: `totalAmount` is modelled as an absent value or a number only, so non-numeric JSON totals (the truthy string "0", the falsy "" or `false`) are not expressed; for those the handler's check is the same truthiness test, refusing exactly the falsy ones.
- Users.AddAddress: `isDefault` is modelled as an absent value or a boolean only. The source tests the raw value's truthiness to clear earlier defaults but stores Mongoose's Boolean cast of it, so a string such as "false", "0" or "no" would clear every earlier default and then be stored as false, leaving no default address; that case is not expressed.
- A request `customer` that is a non-object truthy value, or `items` that is not an array: `Option` fields cover only absent/null versus present.
- IEEE-754 rounding of `price * 100` and of the subtotal accumulation: exact arithmetic is used.
- The HTML email body and `toLocaleDateString` / `toFixed` formatting: presentation only.
- A rejected `sendEmail` becoming an unhandled promise rejection, and the interleaving of the un-awaited email and stock update with each other and the response: concurrency, not sequential logic.
- Orders.ItemErrors: the ObjectId cast is modelled as accepting exactly 24 hexadecimal digits; older BSON versions also accept any 12-character string, which is not expressed.
- Orders.ValidationErrors: a line without `_id` gets a freshly generated ObjectId on save; the model keeps "" for it, so the stock update filters on "" rather than on that fresh id (either matches no product whose id is an ObjectId).
- The `availableSizes` required-array rule of the order schema: whether an empty array passes depends on the Mongoose version.
- An order line without `selectedSize` (an `undefined` filter value): the model gives every line a size string.
- Mongoose's `trim`/`lowercase` setters, bcrypt password hashing and comparison, JWT issuance, and every CRUD handler and route: library calls and thin wrappers.
- Product and TempOrder schemas: the stock model takes sizes as `{size, quantity}` entries, as the stock update assumes; the temporary order collection is never used by this code.
- controllers/orderController.js is not part of this model: it declares `Order` twice and does not load.

=== FILE: checkout.dfy ===
/**
 `createCheckoutSession`: the request check, the Stripe line items derived
 from the cart, and the session request handed to the payment processor. The
 processor itself is the `gateway` parameter; the response records which
 session request, if any, was made.
 */
module Checkout {
  import opened Common
  import opened Orders

  /** The three checked fields as JSON can give them: an absent or null field is
      `None`; an array (even an empty one) and any object are truthy; the number
      0 is the one falsy total. */
  datatype CheckoutRequest = CheckoutRequest(
    customer: Option<Customer>,
    paymentMethod: string,
    items: Option<seq<Item>>,
    totalAmount: Option<real>)

  /** One Stripe `line_items` entry: `price_data` flattened. */
  datatype LineItem = LineItem(currency: string, name: string, images: seq<string>, unitAmount: int, quantity: int)

  /** What the session carries back to the webhook (serialised to JSON strings there). */
  datatype Metadata = Metadata(customer: Customer, paymentMethod: string, items: seq<Item>, totalAmount: real)

  datatype SessionParams = SessionParams(
    paymentMethodTypes: seq<string>,
    customerEmail: string,
    lineItems: seq<LineItem>,
    mode: string,
    metadata: Metadata,
    successUrl: string,
    cancelUrl: string)

  /** The payment processor's answer to a session request. */
  datatype GatewayReply = Created(url: string) | Failed(message: string)

  datatype Body = Redirect(url: string) | ErrorBody(error: string)

  datatype Response = Response(status: int, body: Body, requested: Option<SessionParams>)

  const Currency := "gbp"
  const SuccessUrl := "https://www.urbantuxedo.co.uk/checkout-success"
  const CancelUrl := "https://www.urbantuxedo.co.uk/checkout-failed"
  const MissingFields := "Missing required fields"

  /** `Math.round` on exact values: the nearest integer, halves rounded up. */
  function Round(x: real): (r: int)
    ensures x - 0.5 < r as real <= x + 0.5
  {
    (x + 0.5).Floor
  }

  /** Only one integer lies in the window `Round` promises. */
  lemma RoundUnique(x: real, n: int)
    requires x - 0.5 < n as real <= x + 0.5
    ensures n == Round(x)
  {
  }

  /** A price given in whole pence is converted without loss. */
  lemma RoundWholePence(price: real, pence: int)
    requires price * 100.0 == pence as real
    ensures Round(price * 100.0) == pence
  {
    RoundUnique(price * 100.0, pence);
  }

  /** The `images` entry: `primary` if truthy, else `gallery[0]` if truthy, else "". */
  function ImageFor(images: Images): (r: string)
    ensures r != "" <==> images.primary != "" || (|images.gallery| > 0 && images.gallery[0] != "")
    ensures images.primary != "" ==> r == images.primary
    ensures r != "" && r != images.primary ==> |images.gallery| > 0 && r == images.gallery[0]
  {
    if images.primary != "" then images.primary
    else if |images.gallery| > 0 && images.gallery[0] != "" then images.gallery[0]
    else ""
  }

  function LineItemFor(it: Item): LineItem {
    LineItem(Currency, it.title, [ImageFor(it.images)], Round(it.price * 100.0), it.quantity)
  }

  /** `items.map(...)`: one line per item, same order. */
  function LineItems(items: seq<Item>): (r: seq<LineItem>)
    ensures |r| == |items|
    ensures forall i :: 0 <= i < |r| ==>
      && r[i].currency == Currency
      && r[i].name == items[i].title
      && r[i].images == [ImageFor(items[i].images)]
      && r[i].quantity == items[i].quantity
      && items[i].price * 100.0 - 0.5 < r[i].unitAmount as real <= items[i].price * 100.0 + 0.5
  {
    seq(|items|, i requires 0 <= i < |items| => LineItemFor(items[i]))
  }

  /**
   The checkout handler. Falsy `customer`, `items` or `totalAmount` is refused
   with 400 before any session is requested; otherwise exactly one session
   request is made and the processor's answer decides between 200 with its
   URL and 500 with its message.
   */
  function CreateCheckoutSession(req: CheckoutRequest, gateway: SessionParams -> GatewayReply): (r: Response)
    ensures r.requested.None? <==> req.customer.None? || req.items.None? || req.totalAmount.None? || req.totalAmount == Some(0.0)
    ensures r.requested.None? ==> r.status == 400 && r.body == ErrorBody(MissingFields)
    ensures r.requested.Some? ==>
      var p := r.requested.value;
      && p.customerEmail == req.customer.value.email
      && p.paymentMethodTypes == ["card"]
      && p.mode == "payment"
      && p.successUrl == SuccessUrl && p.cancelUrl == CancelUrl
      && p.lineItems == LineItems(req.items.value)
      && p.metadata == Metadata(req.customer.value, req.paymentMethod, req.items.value, req.totalAmount.value)
      && (gateway(p).Created? ==> r.status == 200 && r.body == Redirect(gateway(p).url))
      && (gateway(p).Failed? ==> r.status == 500 && r.body == ErrorBody(gateway(p).message))
  {
    if req.customer.None? || req.items.None? || req.totalAmount.None? || req.totalAmount.value == 0.0 then
      Response(400, ErrorBody(MissingFields), None)
    else
      var customer := req.customer.value;
      var items := req.items.value;
      var p := SessionParams(["card"], customer.email, LineItems(items), "payment",
                             Metadata(customer, req.paymentMethod, items, req.totalAmount.value), SuccessUrl, CancelUrl);
      match gateway(p)
      case Created(url) => Response(200, Redirect(url), Some(p))
      case Failed(message) => Response(500, ErrorBody(message), Some(p))
  }

  /** Truthiness edge cases: an empty cart is let through, a zero total is not,
      and a negative total is let through. */
  lemma TruthinessEdgeCases(c: Customer, m: string, gateway: SessionParams -> GatewayReply)
    ensures CreateCheckoutSession(CheckoutRequest(Some(c), m, Some([]), Some(10.0)), gateway).requested.Some?
    ensures CreateCheckoutSession(CheckoutRequest(Some(c), m, Some([]), Some(0.0)), gateway).requested.None?
    ensures CreateCheckoutSession(CheckoutRequest(Some(c), m, Some([]), Some(-1.0)), gateway).requested.Some?
  {
  }

  // ---------------------------------------------------------------------------
  // What Stripe charges versus the cart's value

  /** Amount Stripe charges for the lines, in pence. */
  function Charge(lines: seq<LineItem>): int
    decreases |lines|
  {
    if lines == [] then 0
    else Charge(lines[..|lines| - 1]) + lines[|lines| - 1].unitAmount * lines[|lines| - 1].quantity
  }

  function TotalQuantity(items: seq<Item>): int
    decreases |items|
  {
    if items == [] then 0 else TotalQuantity(items[..|items| - 1]) + items[|items| - 1].quantity
  }

  /** The last line's contribution: its charge is 100 times its value, give or take half a penny per unit. */
  lemma LineWithinHalfPenny(it: Item)
    requires it.quantity >= 0
    ensures var charged := (Round(it.price * 100.0) * it.quantity) as real;
      var exact := 100.0 * (it.price * it.quantity as real);
      exact - 0.5 * it.quantity as real <= charged <= exact + 0.5 * it.quantity as real
  {
    var q := it.quantity as real;
    var d := Round(it.price * 100.0) as real - it.price * 100.0;
    assert 0.0 < d + 0.5 && d <= 0.5 && q >= 0.0;
    MulNonNegative(0.5 - d, q);
    MulNonNegative(d + 0.5, q);
    assert (Round(it.price * 100.0) * it.quantity) as real == d * q + 100.0 * (it.price * q);
  }

  lemma MulNonNegative(a: real, b: real)
    requires a >= 0.0 && b >= 0.0
    ensures a * b >= 0.0
  {
  }

  lemma LineItemsPrefix(items: seq<Item>)
    requires items != []
    ensures LineItems(items[..|items| - 1]) == LineItems(items)[..|items| - 1]
    ensures LineItems(items)[|items| - 1] == LineItemFor(items[|items| - 1])
  {
  }

  /**
   Rounding each unit price to pence moves the charged amount away from 100
   times the exact subtotal by at most half a penny per unit bought. Nothing in
   the handler compares either amount with the client's `totalAmount`.
   */
  lemma {:induction false} ChargeNearSubtotal(items: seq<Item>)
    requires forall i :: 0 <= i < |items| ==> items[i].quantity >= 0
    ensures var diff := Charge(LineItems(items)) as real - 100.0 * Subtotal(items);
      -0.5 * TotalQuantity(items) as real <= diff <= 0.5 * TotalQuantity(items) as real
    decreases |items|
  {
    if items != [] {
      var init := items[..|items| - 1];
      var last := items[|items| - 1];
      forall i | 0 <= i < |init| ensures init[i].quantity >= 0 {
        assert init[i] == items[i];
      }
      ChargeNearSubtotal(init);
      LineItemsPrefix(items);
      LineWithinHalfPenny(last);
      var lines := LineItems(items);
      assert Charge(lines) == Charge(LineItems(init)) + Round(last.price * 100.0) * last.quantity;
      assert Subtotal(items) == Subtotal(init) + last.price * last.quantity as real;
      assert TotalQuantity(items) == TotalQuantity(init) + last.quantity;
    }
  }
}

=== FILE: common.dfy ===
/** Small shared vocabulary: an optional value, used wherever a JSON field may be absent. */
module Common {

  /** A value that may be missing (`undefined`/`null` in the request body, or a parse that threw). */
  datatype Option<+T> = None | Some(value: T)

  function Min(a: int, b: int): int {
    if a <= b then a else b
  }
}

=== FILE: email.dfy ===
/**
 The arithmetic of the order-confirmation email: recipient, short order
 reference, subtotal and the shipping line derived from it. The HTML template,
 date formatting and the mail transport are not modelled.
 */
module Email {
  import opened Common
  import opened Orders

  datatype Summary = Summary(to: string, orderRef: string, subtotal: real, shipping: real, total: real)

  const RefLength := 10

  /** `subtotal += item.price * item.quantity` over the lines. */
  method ComputeSubtotal(items: seq<Item>) returns (subtotal: real)
    ensures subtotal == Subtotal(items)
  {
    subtotal := 0.0;
    var i := 0;
    while i < |items|
      invariant 0 <= i <= |items|
      invariant subtotal == Subtotal(items[..i])
    {
      assert items[..i + 1][..i] == items[..i];
      subtotal := subtotal + items[i].price * items[i].quantity as real;
      i := i + 1;
    }
    assert items[..|items|] == items;
  }

  /** `id.substring(0, 10)`: the first ten characters, or the whole id when shorter. */
  function OrderRef(id: string): (r: string)
    ensures |r| == Min(RefLength, |id|)
    ensures r <= id
  {
    if |id| <= RefLength then id else id[..RefLength]
  }

  /**
   The figures the confirmation shows: the shipping line is whatever the order
   total exceeds the subtotal by, so subtotal and shipping add up to the total.
   */
  method ConfirmationSummary(email: string, o: Order) returns (s: Summary)
    ensures s.subtotal == Subtotal(o.items)
    ensures s.subtotal + s.shipping == s.total && s.total == o.totalAmount
    ensures s.to == (if email != "" then email else o.customer.email)
    ensures |s.orderRef| == Min(RefLength, |o.id|) && s.orderRef <= o.id
  {
    var subtotal := ComputeSubtotal(o.items);
    var shipping := o.totalAmount - subtotal;
    s := Summary(if email != "" then email else o.customer.email, OrderRef(o.id), subtotal, shipping, o.totalAmount);
  }

  /** For an order the schema accepts, the shipping line never exceeds the total. */
  lemma ShippingAtMostTotal(o: Order)
    requires ValidOrder(o)
    ensures o.totalAmount - Subtotal(o.items) <= o.totalAmount
  {
    SubtotalNonNegative(o.items);
  }
}

=== FILE: orders.dfy ===
/**
 The order document and the constraints its Mongoose schema enforces when the
 document is saved. A save that fails validation reports every failing path;
 `ValidationErrors` models that report and `ValidOrder` the declarative reading
 of the same schema.
 */
module Orders {
  import opened Common

  datatype Address = Address(street: string, city: string, state: string, zipCode: string)

  /** The customer snapshot copied into the order (not a reference to a user). */
  datatype Customer = Customer(firstName: string, lastName: string, email: string, phone: string, address: Address)

  /** An absent `primary` is written "" and an absent `gallery` is written []:
      every reader of images treats the two alike (falsy / failing `required`). */
  datatype Images = Images(primary: string, gallery: seq<string>)

  /** One ordered line. `id` is the line's own `_id`, which the stock update uses as
      the product id; `productId` is the schema's separate reference field. Both are
      ObjectIds in the schema; an absent `_id` is written "". */
  datatype Item = Item(
    id: string,
    productId: string,
    title: string,
    price: real,
    images: Images,
    availableSizes: seq<string>,
    selectedSize: string,
    quantity: int)

  datatype Order = Order(
    id: string,
    customer: Customer,
    paymentMethod: string,
    items: seq<Item>,
    totalAmount: real,
    createdAt: int,
    status: string)

  const PaymentMethods: set<string> := {"cod", "card", "paypal"}

  /** The schema path a failed validation names. */
  datatype Path =
    | CustomerPath(field: string)
    | PaymentMethodPath
    | ItemPath(index: nat, field: string)
    | TotalAmountPath
    | StatusPath

  // ---------------------------------------------------------------------------
  // Declarative reading of the schema

  predicate ValidAddress(a: Address) {
    a.street != "" && a.city != "" && a.state != "" && a.zipCode != ""
  }

  predicate ValidCustomer(c: Customer) {
    c.firstName != "" && c.lastName != "" && c.email != "" && c.phone != "" && ValidAddress(c.address)
  }

  predicate HexDigit(c: char) {
    '0' <= c <= '9' || 'a' <= c <= 'f' || 'A' <= c <= 'F'
  }

  /** A string the ObjectId cast accepts: 24 hexadecimal digits. */
  predicate ObjectIdString(s: string) {
    |s| == 24 && forall i :: 0 <= i < |s| ==> HexDigit(s[i])
  }

  /** A line's `_id` is either absent (written "", Mongoose then generates one) or must cast. */
  predicate ValidLineId(id: string) {
    id == "" || ObjectIdString(id)
  }

  predicate ValidItem(it: Item) {
    && ValidLineId(it.id)
    && ObjectIdString(it.productId)
    && it.title != "" && it.price >= 0.0 && it.images.primary != "" && it.quantity >= 1
  }

  predicate ValidItems(items: seq<Item>) {
    forall i :: 0 <= i < |items| ==> ValidItem(items[i])
  }

  /** `status` is required but not restricted to an enumeration. */
  predicate ValidOrder(o: Order) {
    && ValidCustomer(o.customer)
    && o.paymentMethod in PaymentMethods
    && ValidItems(o.items)
    && o.totalAmount >= 0.0
    && o.status != ""
  }

  // ---------------------------------------------------------------------------
  // The validator as Mongoose runs it: one error per failing path

  function When(failed: bool, p: Path): seq<Path> {
    if failed then [p] else []
  }

  function CustomerErrors(c: Customer): (errs: seq<Path>)
    ensures errs == [] <==> ValidCustomer(c)
    ensures forall p :: p in errs ==> p.CustomerPath?
  {
    When(c.firstName == "", CustomerPath("firstName"))
    + When(c.lastName == "", CustomerPath("lastName"))
    + When(c.email == "", CustomerPath("email"))
    + When(c.phone == "", CustomerPath("phone"))
    + When(c.address.street == "", CustomerPath("address.street"))
    + When(c.address.city == "", CustomerPath("address.city"))
    + When(c.address.state == "", CustomerPath("address.state"))
    + When(c.address.zipCode == "", CustomerPath("address.zipCode"))
  }

  function ItemErrors(it: Item, index: nat): (errs: seq<Path>)
    ensures errs == [] <==> ValidItem(it)
    ensures forall p :: p in errs ==> p.ItemPath? && p.index == index
  {
    When(!ValidLineId(it.id), ItemPath(index, "_id"))
    + When(!ObjectIdString(it.productId), ItemPath(index, "productId"))
    + When(it.title == "", ItemPath(index, "title"))
    + When(it.price < 0.0, ItemPath(index, "price"))
    + When(it.images.primary == "", ItemPath(index, "images.primary"))
    + When(it.quantity < 1, ItemPath(index, "quantity"))
  }

  /** Errors of `items`, whose first element sits at position `from` of the order. */
  function ItemsErrors(items: seq<Item>, from: nat): (errs: seq<Path>)
    ensures forall p :: p in errs ==> p.ItemPath? && from <= p.index < from + |items|
    decreases |items|
  {
    if items == [] then []
    else ItemErrors(items[0], from) + ItemsErrors(items[1..], from + 1)
  }

  lemma {:induction false} ItemsErrorsEmpty(items: seq<Item>, from: nat)
    ensures ItemsErrors(items, from) == [] <==> ValidItems(items)
    decreases |items|
  {
    if items != [] {
      ItemsErrorsEmpty(items[1..], from + 1);
      assert ValidItems(items) <==> ValidItem(items[0]) && ValidItems(items[1..]) by {
        if ValidItem(items[0]) && ValidItems(items[1..]) {
          forall i | 0 <= i < |items| ensures ValidItem(items[i]) {
            if i > 0 { assert items[i] == items[1..][i - 1]; }
          }
        }
      }
    }
  }

  /** A product id that is not an ObjectId, such as "abc", fails the cast on save. */
  lemma NonObjectIdRefused(it: Item)
    requires it.productId == "abc"
    ensures ItemPath(0, "productId") in ItemErrors(it, 0)
    ensures !ValidItem(it)
  {
  }

  /** The paths a `save()` of `o` rejects (the order Mongoose reports them in is not modelled). */
  function ValidationErrors(o: Order): (errs: seq<Path>)
    ensures errs == [] <==> ValidOrder(o)
    ensures PaymentMethodPath in errs <==> o.paymentMethod !in PaymentMethods
    ensures TotalAmountPath in errs <==> o.totalAmount < 0.0
    ensures StatusPath in errs <==> o.status == ""
    ensures forall p :: p in errs && p.ItemPath? ==> p.index < |o.items|
  {
    ItemsErrorsEmpty(o.items, 0);
    var customer := CustomerErrors(o.customer);
    var items := ItemsErrors(o.items, 0);
    var tail := When(o.totalAmount < 0.0, TotalAmountPath) + When(o.status == "", StatusPath);
    assert PaymentMethodPath !in customer && TotalAmountPath !in customer && StatusPath !in customer;
    assert PaymentMethodPath !in items && TotalAmountPath !in items && StatusPath !in items;
    customer + When(o.paymentMethod !in PaymentMethods, PaymentMethodPath) + items + tail
  }

  /** No enumeration is enforced on `status`: any non-empty string is accepted,
      whatever the rest of the order. */
  lemma StatusIsFreeText(o: Order, s: string)
    requires ValidOrder(o)
    ensures ValidOrder(o.(status := s)) <==> s != ""
  {
  }

  // ---------------------------------------------------------------------------
  // Money

  /** Sum of `price * quantity` over the lines, in exact arithmetic. */
  function Subtotal(items: seq<Item>): real
    decreases |items|
  {
    if items == [] then 0.0
    else Subtotal(items[..|items| - 1]) + items[|items| - 1].price * items[|items| - 1].quantity as real
  }

  lemma {:induction false} SubtotalNonNegative(items: seq<Item>)
    requires ValidItems(items)
    ensures Subtotal(items) >= 0.0
    decreases |items|
  {
    if items != [] {
      var last := items[|items| - 1];
      assert ValidItem(last);
      assert ValidItems(items[..|items| - 1]) by {
        var init := items[..|items| - 1];
        forall i | 0 <= i < |init| ensures ValidItem(init[i]) {
          assert init[i] == items[i];
        }
      }
      SubtotalNonNegative(items[..|items| - 1]);
      assert last.price * last.quantity as real >= 0.0;
    }
  }
}

=== FILE: stock.dfy ===
/**
 `updateItemStockCount`: one `updateOne` per order line, sent as one ordered
 bulk write. Each update picks the first product whose `_id` is the line's
 `_id` and that lists the selected size, and `$inc`s the first matching size
 entry (the positional `$`) by minus the ordered quantity. There is no lower
 bound on stock. A failed write is logged and swallowed.
 */
module Stock {
  import opened Common
  import opened Orders

  datatype SizeStock = SizeStock(size: string, quantity: int)

  /** A product as the stock update sees it: `availableSizes` as `{size, quantity}` entries. */
  datatype ProductStock = ProductStock(id: string, sizes: seq<SizeStock>)

  /** One `updateOne` of the bulk write: filter on id and size, decrement by `decrement`. */
  datatype UpdateOp = UpdateOp(productId: string, size: string, decrement: int)

  /** A size entry of the catalogue: product position, entry position. */
  datatype Slot = Slot(product: nat, entry: nat)

  datatype StockReport = StockReport(catalog: seq<ProductStock>, warned: bool, errorLogged: bool)

  /** One update per order line, in line order. */
  function OpsFor(items: seq<Item>): (ops: seq<UpdateOp>)
    ensures |ops| == |items|
    ensures forall i :: 0 <= i < |ops| ==>
      ops[i].productId == items[i].id && ops[i].size == items[i].selectedSize && ops[i].decrement == items[i].quantity
  {
    seq(|items|, i requires 0 <= i < |items| => UpdateOp(items[i].id, items[i].selectedSize, items[i].quantity))
  }

  /** Ids and size names agree; only quantities may differ. */
  predicate SameShape(a: seq<ProductStock>, b: seq<ProductStock>) {
    && |a| == |b|
    && (forall p :: 0 <= p < |a| ==> a[p].id == b[p].id && |a[p].sizes| == |b[p].sizes|)
    && (forall p, s :: 0 <= p < |a| && 0 <= s < |a[p].sizes| ==> a[p].sizes[s].size == b[p].sizes[s].size)
  }

  /** First entry at or after `from` carrying `size`. */
  function SizeIndexFrom(sizes: seq<SizeStock>, size: string, from: nat): (r: Option<nat>)
    requires from <= |sizes|
    ensures r.Some? ==> from <= r.value < |sizes| && sizes[r.value].size == size
    ensures r.Some? ==> forall j :: from <= j < r.value ==> sizes[j].size != size
    ensures r.None? ==> forall j :: from <= j < |sizes| ==> sizes[j].size != size
    decreases |sizes| - from
  {
    if from == |sizes| then None
    else if sizes[from].size == size then Some(from)
    else SizeIndexFrom(sizes, size, from + 1)
  }

  function SizeIndex(sizes: seq<SizeStock>, size: string): Option<nat> {
    SizeIndexFrom(sizes, size, 0)
  }

  /** First product at or after `from` that the filter `{_id, "availableSizes.size"}` matches. */
  function ProductIndexFrom(catalog: seq<ProductStock>, op: UpdateOp, from: nat): (r: Option<nat>)
    requires from <= |catalog|
    ensures r.Some? ==>
      from <= r.value < |catalog| && catalog[r.value].id == op.productId && SizeIndex(catalog[r.value].sizes, op.size).Some?
    ensures r.Some? ==> forall j :: from <= j < r.value ==>
      catalog[j].id != op.productId || SizeIndex(catalog[j].sizes, op.size).None?
    ensures r.None? ==> forall j :: from <= j < |catalog| ==>
      catalog[j].id != op.productId || SizeIndex(catalog[j].sizes, op.size).None?
    decreases |catalog| - from
  {
    if from == |catalog| then None
    else if catalog[from].id == op.productId && SizeIndex(catalog[from].sizes, op.size).Some? then Some(from)
    else ProductIndexFrom(catalog, op, from + 1)
  }

  /** The size entry an update changes, if its filter matches anything. */
  function Target(catalog: seq<ProductStock>, op: UpdateOp): (t: Option<Slot>)
    ensures t.Some? ==> t.value.product < |catalog| && t.value.entry < |catalog[t.value.product].sizes|
    ensures t.Some? ==>
      catalog[t.value.product].id == op.productId && catalog[t.value.product].sizes[t.value.entry].size == op.size
    ensures t.Some? ==> forall s :: 0 <= s < t.value.entry ==> catalog[t.value.product].sizes[s].size != op.size
    ensures t.Some? ==> forall p, s :: 0 <= p < t.value.product && 0 <= s < |catalog[p].sizes| ==>
      catalog[p].id != op.productId || catalog[p].sizes[s].size != op.size
    ensures t.None? <==> forall p, s :: 0 <= p < |catalog| && 0 <= s < |catalog[p].sizes| ==>
      catalog[p].id != op.productId || catalog[p].sizes[s].size != op.size
  {
    match ProductIndexFrom(catalog, op, 0)
    case None =>
      forall p, s | 0 <= p < |catalog| && 0 <= s < |catalog[p].sizes|
        ensures catalog[p].id != op.productId || catalog[p].sizes[s].size != op.size
      {
        if catalog[p].id == op.productId {
          assert SizeIndex(catalog[p].sizes, op.size).None?;
        }
      }
      None
    case Some(p) => Some(Slot(p, SizeIndex(catalog[p].sizes, op.size).value))
  }

  /** Which entry an update hits depends only on ids and size names. */
  lemma TargetShape(a: seq<ProductStock>, b: seq<ProductStock>, op: UpdateOp)
    requires SameShape(a, b)
    ensures Target(a, op) == Target(b, op)
  {
  }

  /** One `updateOne`: the matched entry loses `decrement`, nothing else changes. */
  function ApplyOp(catalog: seq<ProductStock>, op: UpdateOp): (c: seq<ProductStock>)
    ensures SameShape(catalog, c)
    ensures forall p, s :: 0 <= p < |c| && 0 <= s < |c[p].sizes| ==>
      c[p].sizes[s].quantity == catalog[p].sizes[s].quantity - (if Target(catalog, op) == Some(Slot(p, s)) then op.decrement else 0)
  {
    match Target(catalog, op)
    case None => catalog
    case Some(t) =>
      var product := catalog[t.product];
      var entry := product.sizes[t.entry];
      catalog[t.product := product.(sizes := product.sizes[t.entry := entry.(quantity := entry.quantity - op.decrement)])]
  }

  lemma SameShapeTrans(a: seq<ProductStock>, b: seq<ProductStock>, c: seq<ProductStock>)
    requires SameShape(a, b) && SameShape(b, c)
    ensures SameShape(a, c)
  {
  }

  /** The ops applied in order. */
  function ApplyAll(catalog: seq<ProductStock>, ops: seq<UpdateOp>): (c: seq<ProductStock>)
    ensures SameShape(catalog, c)
    decreases |ops|
  {
    if ops == [] then catalog
    else
      var before := ApplyAll(catalog, ops[..|ops| - 1]);
      var after := ApplyOp(before, ops[|ops| - 1]);
      SameShapeTrans(catalog, before, after);
      after
  }

  /** Total decrement of the ops whose filter hits `slot`. */
  function Decrements(catalog: seq<ProductStock>, ops: seq<UpdateOp>, slot: Slot): int
    decreases |ops|
  {
    if ops == [] then 0
    else
      Decrements(catalog, ops[..|ops| - 1], slot)
      + (if Target(catalog, ops[|ops| - 1]) == Some(slot) then ops[|ops| - 1].decrement else 0)
  }

  /** Number of ops that change a document: a match and a non-zero `$inc`. */
  function ModifiedCount(catalog: seq<ProductStock>, ops: seq<UpdateOp>): nat
    decreases |ops|
  {
    if ops == [] then 0
    else
      ModifiedCount(catalog, ops[..|ops| - 1])
      + (if Target(catalog, ops[|ops| - 1]).Some? && ops[|ops| - 1].decrement != 0 then 1 else 0)
  }

  /**
   After the ordered ops, each size entry holds its old quantity minus the sum of
   the decrements aimed at it; entries no op aims at are unchanged. No lower bound
   is applied.
   */
  lemma {:induction false} ApplyAllQuantity(catalog: seq<ProductStock>, ops: seq<UpdateOp>, p: nat, s: nat)
    requires p < |catalog| && s < |catalog[p].sizes|
    ensures ApplyAll(catalog, ops)[p].sizes[s].quantity == catalog[p].sizes[s].quantity - Decrements(catalog, ops, Slot(p, s))
    decreases |ops|
  {
    if ops != [] {
      var init := ops[..|ops| - 1];
      var last := ops[|ops| - 1];
      var before := ApplyAll(catalog, init);
      ApplyAllQuantity(catalog, init, p, s);
      TargetShape(catalog, before, last);
    }
  }

  /** The warning condition reads: some line matched no size entry, or asked for zero. */
  lemma {:induction false} ModifiedCountAll(catalog: seq<ProductStock>, ops: seq<UpdateOp>)
    ensures ModifiedCount(catalog, ops) <= |ops|
    ensures ModifiedCount(catalog, ops) == |ops| <==>
      forall i :: 0 <= i < |ops| ==> Target(catalog, ops[i]).Some? && ops[i].decrement != 0
    decreases |ops|
  {
    if ops != [] {
      var init := ops[..|ops| - 1];
      ModifiedCountAll(catalog, init);
      assert forall i :: 0 <= i < |init| ==> init[i] == ops[i];
    }
  }

  /** The bulk write: ops before `failAt` are applied, the failing one stops the ordered write. */
  method BulkWrite(catalog: seq<ProductStock>, ops: seq<UpdateOp>, failAt: Option<nat>)
    returns (result: seq<ProductStock>, modified: nat, failed: bool)
    ensures failed <==> failAt.Some? && failAt.value < |ops|
    ensures var n := if failed then failAt.value else |ops|;
      result == ApplyAll(catalog, ops[..n]) && modified == ModifiedCount(catalog, ops[..n])
  {
    failed := failAt.Some? && failAt.value < |ops|;
    var n := if failed then failAt.value else |ops|;
    result := catalog;
    modified := 0;
    var i := 0;
    while i < n
      invariant 0 <= i <= n
      invariant result == ApplyAll(catalog, ops[..i])
      invariant modified == ModifiedCount(catalog, ops[..i])
    {
      assert ops[..i + 1][..i] == ops[..i];
      TargetShape(catalog, result, ops[i]);
      if Target(result, ops[i]).Some? && ops[i].decrement != 0 {
        modified := modified + 1;
      }
      result := ApplyOp(result, ops[i]);
      i := i + 1;
    }
  }

  /**
   `updateItemStockCount(order)`. On success every size entry ends at its old
   quantity minus the quantities of the lines aimed at it, and the warning is
   logged exactly when the modified count differs from the number of lines. A
   failed write is logged, never raised; the lines before the failure stay applied.
   */
  method UpdateItemStockCount(o: Order, catalog: seq<ProductStock>, failAt: Option<nat>) returns (report: StockReport)
    ensures report.errorLogged <==> failAt.Some? && failAt.value < |o.items|
    ensures report.errorLogged ==> !report.warned
    ensures !report.errorLogged ==>
      && (report.warned <==> ModifiedCount(catalog, OpsFor(o.items)) != |o.items|)
      && SameShape(catalog, report.catalog)
      && |report.catalog| == |catalog|
      && forall p, s :: 0 <= p < |catalog| && 0 <= s < |catalog[p].sizes| ==>
           |report.catalog[p].sizes| == |catalog[p].sizes|
           && report.catalog[p].sizes[s].quantity
              == catalog[p].sizes[s].quantity - Decrements(catalog, OpsFor(o.items), Slot(p, s))
    ensures report.errorLogged ==> report.catalog == ApplyAll(catalog, OpsFor(o.items)[..failAt.value])
  {
    var ops := OpsFor(o.items);
    var result, modified, failed := BulkWrite(catalog, ops, failAt);
    if failed {
      report := StockReport(result, false, true);
    } else {
      assert ops[..|ops|] == ops;
      forall p, s | 0 <= p < |catalog| && 0 <= s < |catalog[p].sizes|
        ensures result[p].sizes[s].quantity == catalog[p].sizes[s].quantity - Decrements(catalog, ops, Slot(p, s))
      {
        ApplyAllQuantity(catalog, ops, p, s);
      }
      report := StockReport(result, modified != |o.items|, false);
    }
  }

  /** Stock is not floored at zero: ordering three of a size with one left leaves minus two. */
  lemma StockMayGoNegative()
    ensures ApplyAll([ProductStock("p", [SizeStock("M", 1)])], [UpdateOp("p", "M", 3)])
            == [ProductStock("p", [SizeStock("M", -2)])]
  {
    var c := [ProductStock("p", [SizeStock("M", 1)])];
    var op := UpdateOp("p", "M", 3);
    assert SizeIndex(c[0].sizes, "M") == Some(0);
    assert [op][..0] == [];
    var r := ApplyOp(c, op);
    assert r[0].sizes[0] == SizeStock("M", -2);
    assert r[0].sizes == [SizeStock("M", -2)];
  }
}

=== FILE: users.dfy ===
/**
 The list-valued parts of a user document and the instance methods that edit
 them: the cart, the wishlist and the address book, plus the `fullName`
 virtual. Each method is a pure transformation of one list; the rest of the
 user is untouched by construction.
 */
module Users {
  import opened Common

  datatype CartEntry = CartEntry(productId: string, quantity: int)

  /** An address as stored: `country` defaults to "US" and `isDefault` to false. */
  datatype Address = Address(street: string, city: string, state: string, zipCode: string, country: string, isDefault: bool)

  /** An address as passed to `addAddress`, before the schema fills in defaults. */
  datatype NewAddress = NewAddress(street: string, city: string, state: string, zipCode: string, country: Option<string>, isDefault: Option<bool>)

  /** Absent names are written "" (both are falsy). */
  datatype User = User(username: string, firstName: string, lastName: string)

  const DefaultCountry := "US"

  // ---------------------------------------------------------------------------
  // Cart

  predicate InCart(cart: seq<CartEntry>, pid: string) {
    exists j :: 0 <= j < |cart| && cart[j].productId == pid
  }

  predicate DistinctProducts(cart: seq<CartEntry>) {
    forall i, j :: 0 <= i < j < |cart| ==> cart[i].productId != cart[j].productId
  }

  /** Position of the entry `Array.prototype.find` returns. */
  function FirstEntry(cart: seq<CartEntry>, pid: string): (k: nat)
    requires InCart(cart, pid)
    ensures k < |cart| && cart[k].productId == pid
    ensures forall j :: 0 <= j < k ==> cart[j].productId != pid
  {
    if cart[0].productId == pid then 0
    else
      assert InCart(cart[1..], pid) by {
        var j :| 0 <= j < |cart| && cart[j].productId == pid;
        assert cart[1..][j - 1] == cart[j];
      }
      1 + FirstEntry(cart[1..], pid)
  }

  /** The cart without any entry for `pid`, other entries in their original order. */
  function RemoveAll(cart: seq<CartEntry>, pid: string): (r: seq<CartEntry>)
    ensures !InCart(r, pid)
    ensures forall e :: e in r <==> e in cart && e.productId != pid
    ensures |r| <= |cart|
    decreases |cart|
  {
    if cart == [] then []
    else if cart[|cart| - 1].productId == pid then RemoveAll(cart[..|cart| - 1], pid)
    else RemoveAll(cart[..|cart| - 1], pid) + [cart[|cart| - 1]]
  }

  /** Filtering distributes over concatenation: the relative order of the kept entries is the original one. */
  lemma {:induction false} RemoveAllConcat(a: seq<CartEntry>, b: seq<CartEntry>, pid: string)
    ensures RemoveAll(a + b, pid) == RemoveAll(a, pid) + RemoveAll(b, pid)
    decreases |b|
  {
    if b != [] {
      var b' := b[..|b| - 1];
      assert (a + b)[..|a + b| - 1] == a + b';
      RemoveAllConcat(a, b', pid);
    } else {
      assert a + b == a;
    }
  }

  /**
   `updateCart(productId, quantity)`: a quantity of zero or less removes every
   entry of a product already in the cart, a positive one overwrites the first
   entry's quantity, and a product not yet in the cart is appended only for a
   positive quantity.
   */
  function UpdateCart(cart: seq<CartEntry>, pid: string, quantity: int): (r: seq<CartEntry>)
    ensures InCart(cart, pid) && quantity <= 0 ==> !InCart(r, pid) && r == RemoveAll(cart, pid)
    ensures InCart(cart, pid) && quantity > 0 ==>
      && |r| == |cart|
      && r[FirstEntry(cart, pid)] == CartEntry(pid, quantity)
      && forall j :: 0 <= j < |cart| && j != FirstEntry(cart, pid) ==> r[j] == cart[j]
    ensures !InCart(cart, pid) && quantity > 0 ==> r == cart + [CartEntry(pid, quantity)]
    ensures !InCart(cart, pid) && quantity <= 0 ==> r == cart
  {
    if InCart(cart, pid) then
      if quantity <= 0 then RemoveAll(cart, pid)
      else cart[FirstEntry(cart, pid) := cart[FirstEntry(cart, pid)].(quantity := quantity)]
    else if quantity > 0 then cart + [CartEntry(pid, quantity)]
    else cart
  }

  lemma {:induction false} RemoveAllKeepsDistinct(cart: seq<CartEntry>, pid: string)
    requires DistinctProducts(cart)
    ensures DistinctProducts(RemoveAll(cart, pid))
    decreases |cart|
  {
    if cart != [] {
      var init := cart[..|cart| - 1];
      var last := cart[|cart| - 1];
      assert DistinctProducts(init) by {
        forall i, j | 0 <= i < j < |init| ensures init[i].productId != init[j].productId {
          assert init[i] == cart[i] && init[j] == cart[j];
        }
      }
      RemoveAllKeepsDistinct(init, pid);
      var r := RemoveAll(init, pid);
      forall e | e in r ensures e.productId != last.productId {
        assert e in init;
        var i :| 0 <= i < |init| && init[i] == e;
        assert cart[i] == e;
      }
      if last.productId != pid {
        var r' := r + [last];
        forall i, j | 0 <= i < j < |r'| ensures r'[i].productId != r'[j].productId {
          if j == |r| {
            assert r'[i] == r[i];
            assert r[i] in r;
          } else {
            assert r'[i] == r[i] && r'[j] == r[j];
          }
        }
      }
    }
  }

  /** Distinct product ids before `updateCart` stay distinct afterwards. */
  lemma UpdateCartKeepsDistinct(cart: seq<CartEntry>, pid: string, quantity: int)
    requires DistinctProducts(cart)
    ensures DistinctProducts(UpdateCart(cart, pid, quantity))
  {
    var r := UpdateCart(cart, pid, quantity);
    if InCart(cart, pid) {
      if quantity <= 0 {
        RemoveAllKeepsDistinct(cart, pid);
      } else {
        var k := FirstEntry(cart, pid);
        forall i, j | 0 <= i < j < |r| ensures r[i].productId != r[j].productId {
          assert r[i].productId == cart[i].productId && r[j].productId == cart[j].productId;
        }
      }
    } else if quantity > 0 {
      forall i, j | 0 <= i < j < |r| ensures r[i].productId != r[j].productId {
        if j == |cart| {
          assert r[i] == cart[i];
        } else {
          assert r[i] == cart[i] && r[j] == cart[j];
        }
      }
    }
  }

  // ---------------------------------------------------------------------------
  // Wishlist

  /** Position `indexOf` returns when the id is present. */
  function IndexOf(w: seq<string>, pid: string): (k: nat)
    requires pid in w
    ensures k < |w| && w[k] == pid
    ensures pid !in w[..k]
  {
    if w[0] == pid then 0
    else
      var k := 1 + IndexOf(w[1..], pid);
      assert w[..k] == [w[0]] + w[1..][..k - 1];
      k
  }

  /** `toggleWishlist(productId)`: splice out the first occurrence, or push the id. */
  function ToggleWishlist(w: seq<string>, pid: string): (r: seq<string>)
    ensures pid in w ==> multiset(r) == multiset(w) - multiset{pid} && |r| == |w| - 1
    ensures pid in w ==>
      && (forall j :: 0 <= j < IndexOf(w, pid) ==> r[j] == w[j])
      && (forall j :: IndexOf(w, pid) <= j < |r| ==> r[j] == w[j + 1])
    ensures pid !in w ==> r == w + [pid]
  {
    if pid in w then
      var k := IndexOf(w, pid);
      assert w == w[..k] + [w[k]] + w[k + 1..];
      w[..k] + w[k + 1..]
    else w + [pid]
  }

  /** Toggling an absent id twice gives back the original list. */
  lemma ToggleTwiceAbsent(w: seq<string>, pid: string)
    requires pid !in w
    ensures ToggleWishlist(ToggleWishlist(w, pid), pid) == w
  {
  }

  /** On a list without repeats, a toggle flips membership and keeps the list without repeats. */
  lemma ToggleFlipsMembership(w: seq<string>, pid: string)
    requires forall i, j :: 0 <= i < j < |w| ==> w[i] != w[j]
    ensures var r := ToggleWishlist(w, pid);
      && (pid in r <==> pid !in w)
      && forall i, j :: 0 <= i < j < |r| ==> r[i] != r[j]
  {
  }

  // ---------------------------------------------------------------------------
  // Address book

  /** The stored form of a new address, with the schema defaults filled in. */
  function Cast(a: NewAddress): (r: Address)
    ensures r.isDefault <==> a.isDefault == Some(true)
    ensures a.country.None? ==> r.country == DefaultCountry
    ensures a.country.Some? ==> r.country == a.country.value
    ensures r.street == a.street && r.city == a.city && r.state == a.state && r.zipCode == a.zipCode
  {
    Address(a.street, a.city, a.state, a.zipCode,
            match a.country case Some(c) => c case None => DefaultCountry,
            a.isDefault == Some(true))
  }

  function DefaultCount(addrs: seq<Address>): nat
    decreases |addrs|
  {
    if addrs == [] then 0
    else DefaultCount(addrs[..|addrs| - 1]) + (if addrs[|addrs| - 1].isDefault then 1 else 0)
  }

  function ClearDefaults(addrs: seq<Address>): (r: seq<Address>)
    ensures |r| == |addrs|
    ensures forall i :: 0 <= i < |r| ==> r[i] == addrs[i].(isDefault := false)
  {
    seq(|addrs|, i requires 0 <= i < |addrs| => addrs[i].(isDefault := false))
  }

  lemma {:induction false} NoDefaults(addrs: seq<Address>)
    requires forall i :: 0 <= i < |addrs| ==> !addrs[i].isDefault
    ensures DefaultCount(addrs) == 0
    decreases |addrs|
  {
    if addrs != [] {
      var init := addrs[..|addrs| - 1];
      assert forall i :: 0 <= i < |init| ==> init[i] == addrs[i];
      NoDefaults(init);
    }
  }

  lemma DefaultCountAppend(addrs: seq<Address>, a: Address)
    ensures DefaultCount(addrs + [a]) == DefaultCount(addrs) + (if a.isDefault then 1 else 0)
  {
  }

  /**
   `addAddress(address)`: the new address goes at the end; when it is the
   default, every earlier address loses its default flag, so it is then the
   only default; otherwise the earlier addresses are left as they were.
   */
  function AddAddress(addrs: seq<Address>, a: NewAddress): (r: seq<Address>)
    ensures |r| == |addrs| + 1 && r[|addrs|] == Cast(a)
    ensures a.isDefault == Some(true) ==>
      && (forall i :: 0 <= i < |addrs| ==> r[i] == addrs[i].(isDefault := false))
      && DefaultCount(r) == 1
    ensures a.isDefault != Some(true) ==>
      && r[..|addrs|] == addrs
      && DefaultCount(r) == DefaultCount(addrs)
  {
    var stored := Cast(a);
    if stored.isDefault then
      var cleared := ClearDefaults(addrs);
      NoDefaults(cleared);
      DefaultCountAppend(cleared, stored);
      assert (cleared + [stored])[..|addrs|] == cleared;
      cleared + [stored]
    else
      DefaultCountAppend(addrs, stored);
      assert (addrs + [stored])[..|addrs|] == addrs;
      addrs + [stored]
  }

  /** At most one default address is an invariant of `addAddress`. */
  lemma AddAddressKeepsOneDefault(addrs: seq<Address>, a: NewAddress)
    requires DefaultCount(addrs) <= 1
    ensures DefaultCount(AddAddress(addrs, a)) <= 1
  {
  }

  // ---------------------------------------------------------------------------
  // Full name

  /** The `fullName` virtual: "first last" when both names are set, else the username. */
  function FullName(u: User): (r: string)
    ensures u.firstName != "" && u.lastName != "" ==>
      |r| == |u.firstName| + 1 + |u.lastName| && r[..|u.firstName|] == u.firstName
      && r[|u.firstName|] == ' ' && r[|u.firstName| + 1..] == u.lastName
    ensures u.firstName == "" || u.lastName == "" ==> r == u.username
  {
    if u.firstName != "" && u.lastName != "" then u.firstName + " " + u.lastName
    else u.username
  }

  /** Splits a string at its first space. */
  function SplitAtSpace(s: string): (r: (string, string))
    ensures ' ' !in s ==> r == (s, "")
    ensures ' ' in s ==> ' ' !in r.0 && s == r.0 + " " + r.1
    decreases |s|
  {
    if s == [] then ("", "")
    else if s[0] == ' ' then ("", s[1..])
    else
      var rest := SplitAtSpace(s[1..]);
      assert s == [s[0]] + s[1..];
      ([s[0]] + rest.0, rest.1)
  }

  lemma {:induction false} SplitUnique(a: string, s: string)
    requires ' ' !in a
    ensures SplitAtSpace(a + " " + s) == (a, s)
    decreases |a|
  {
    var x := a + " " + s;
    if a != [] {
      assert x[0] == a[0] && x[0] != ' ';
      assert x[1..] == a[1..] + " " + s;
      assert ' ' !in a[1..] by {
        forall i | 0 <= i < |a[1..]| ensures a[1..][i] != ' ' { assert a[1..][i] == a[i + 1]; }
      }
      SplitUnique(a[1..], s);
      assert [a[0]] + a[1..] == a;
    } else {
      assert x[0] == ' ';
      assert x[1..] == s;
    }
  }

  /** When the first name has no space, the two names can be read back from `fullName`. */
  lemma FullNameRoundTrip(u: User)
    requires u.firstName != "" && u.lastName != "" && ' ' !in u.firstName
    ensures SplitAtSpace(FullName(u)) == (u.firstName, u.lastName)
  {
    SplitUnique(u.firstName, u.lastName);
  }
}

=== FILE: webhook.dfy ===
/**
 `stripeWebhook`: the decision the handler takes for one delivery. Signature
 checking is the event's `verified` flag, a metadata field that `JSON.parse`
 rejects is a missing `metadata`, the store's answer to the write is
 `storeAccepts`, and the id and timestamp Mongoose assigns are parameters.
 The confirmation email and the stock update are returned as follow-up tasks;
 they are started without being awaited.
 */
module Webhook {
  import opened Common
  import opened Orders
  import opened Checkout
  import Stock

  const CompletedEvent := "checkout.session.completed"
  const Processing := "Processing"
  const Unhandled := "Unhandled event type"
  const HandlerFailed := "Webhook handler failed"

  datatype Event = Event(verified: bool, eventType: string, metadata: Option<Metadata>)

  datatype FollowUp = SendConfirmation(to: string, order: Order) | AdjustStock(order: Order)

  datatype Reply = Received | ErrorReply(error: string)

  datatype Outcome = Outcome(status: int, reply: Reply, saved: Option<Order>, followUps: seq<FollowUp>)

  /** `new Order({...metadata, status: "Processing"})`. */
  function BuildOrder(m: Metadata, id: string, createdAt: int): Order {
    Order(id, m.customer, m.paymentMethod, m.items, m.totalAmount, createdAt, Processing)
  }

  /** The order rebuilt from metadata never fails validation because of its status. */
  lemma BuiltOrderStatusAccepted(m: Metadata, id: string, createdAt: int)
    ensures StatusPath !in ValidationErrors(BuildOrder(m, id, createdAt))
    ensures ValidOrder(BuildOrder(m, id, createdAt)) <==>
      ValidCustomer(m.customer) && m.paymentMethod in PaymentMethods && ValidItems(m.items) && m.totalAmount >= 0.0
  {
  }

  /**
   The handler. A verified completed-checkout event whose metadata parses and
   whose rebuilt order passes validation and is stored yields exactly that one
   order, 200, and the two follow-ups; every other delivery answers 400 and
   leaves nothing behind.
   */
  function HandleWebhook(e: Event, id: string, createdAt: int, storeAccepts: bool): (r: Outcome)
    ensures r.saved.Some? <==>
      && e.verified && e.eventType == CompletedEvent && e.metadata.Some?
      && ValidCustomer(e.metadata.value.customer)
      && e.metadata.value.paymentMethod in PaymentMethods
      && ValidItems(e.metadata.value.items)
      && e.metadata.value.totalAmount >= 0.0
      && storeAccepts
    ensures r.status == 200 <==> r.saved.Some?
    ensures r.saved.Some? ==>
      var o := r.saved.value;
      var m := e.metadata.value;
      && o.status == Processing && ValidOrder(o)
      && o.id == id && o.createdAt == createdAt
      && o.customer == m.customer && o.paymentMethod == m.paymentMethod
      && o.items == m.items && o.totalAmount == m.totalAmount
      && r.reply == Received
      && r.followUps == [SendConfirmation(m.customer.email, o), AdjustStock(o)]
    ensures r.saved.None? ==> r.status == 400 && r.followUps == []
    ensures !e.verified ==> r.reply == ErrorReply(HandlerFailed)
    ensures e.verified && e.eventType != CompletedEvent ==> r.reply == ErrorReply(Unhandled)
    ensures e.verified && e.eventType == CompletedEvent && r.saved.None? ==> r.reply == ErrorReply(HandlerFailed)
  {
    if !e.verified then Outcome(400, ErrorReply(HandlerFailed), None, [])
    else if e.eventType != CompletedEvent then Outcome(400, ErrorReply(Unhandled), None, [])
    else
      match e.metadata
      case None => Outcome(400, ErrorReply(HandlerFailed), None, [])
      case Some(m) =>
        var o := BuildOrder(m, id, createdAt);
        if ValidationErrors(o) != [] || !storeAccepts then Outcome(400, ErrorReply(HandlerFailed), None, [])
        else Outcome(200, Received, Some(o), [SendConfirmation(m.customer.email, o), AdjustStock(o)])
  }

  /**
   No record of handled sessions is kept: delivering the same completed event
   twice stores two orders with the same contents.
   */
  lemma RedeliveryStoresTwice(e: Event, id1: string, id2: string, t1: int, t2: int)
    requires HandleWebhook(e, id1, t1, true).saved.Some?
    ensures HandleWebhook(e, id2, t2, true).saved.Some?
    ensures var o1 := HandleWebhook(e, id1, t1, true).saved.value;
      var o2 := HandleWebhook(e, id2, t2, true).saved.value;
      o2 == o1.(id := id2, createdAt := t2)
  {
  }

  /**
   Checkout followed by the processor's completion event: the stored order
   carries exactly what the checkout request held, in status "Processing".
   */
  lemma CheckoutThenWebhook(req: CheckoutRequest, gateway: SessionParams -> GatewayReply, id: string, createdAt: int)
    requires CreateCheckoutSession(req, gateway).status == 200
    requires req.customer.Some? && ValidCustomer(req.customer.value)
    requires req.paymentMethod in PaymentMethods
    requires req.items.Some? && ValidItems(req.items.value)
    requires req.totalAmount.Some? && req.totalAmount.value >= 0.0
    ensures var p := CreateCheckoutSession(req, gateway).requested.value;
      var r := HandleWebhook(Event(true, CompletedEvent, Some(p.metadata)), id, createdAt, true);
      && r.status == 200
      && r.saved == Some(Order(id, req.customer.value, req.paymentMethod, req.items.value, req.totalAmount.value, createdAt, Processing))
  {
  }

  /**
   Checkout checks only truthiness, so a request whose payment method the order
   schema refuses still reaches the processor; its completion event then stores
   no order.
   */
  lemma PaidButNotRecorded(req: CheckoutRequest, gateway: SessionParams -> GatewayReply, id: string, createdAt: int)
    requires CreateCheckoutSession(req, gateway).status == 200
    requires req.paymentMethod !in PaymentMethods
    ensures var p := CreateCheckoutSession(req, gateway).requested.value;
      HandleWebhook(Event(true, CompletedEvent, Some(p.metadata)), id, createdAt, true).saved.None?
  {
  }

  /**
   For a stored order every line asks for at least one unit, so the stock
   warning fires exactly when some line matches no product size.
   */
  lemma StockWarningMeansUnmatchedLine(e: Event, id: string, createdAt: int, catalog: seq<Stock.ProductStock>)
    requires HandleWebhook(e, id, createdAt, true).saved.Some?
    ensures var o := HandleWebhook(e, id, createdAt, true).saved.value;
      var ops := Stock.OpsFor(o.items);
      Stock.ModifiedCount(catalog, ops) != |o.items| <==>
        exists i :: 0 <= i < |ops| && Stock.Target(catalog, ops[i]).None?
  {
    var o := HandleWebhook(e, id, createdAt, true).saved.value;
    var ops := Stock.OpsFor(o.items);
    Stock.ModifiedCountAll(catalog, ops);
    forall i | 0 <= i < |ops| ensures ops[i].decrement != 0 {
      assert ValidItem(o.items[i]);
    }
  }
}
